=== FILE: README.md ===
# Grid mesh generator

A Dafny model of the grid-mesh generator of the 3D grid viewer (`Form1.cs`). At start-up the
program fills two buffers. The vertex buffer holds `gridWidth * gridLength` white points
`(x, 0, z)` in row-major order: rows `z` outside, columns `x` inside. The index buffer holds
`(gridLength - 1)^2 * 6` indices, two triangles per grid cell. The paint loop then draws
`indCount / 3` triangles of a triangle list over `vertCount` vertices.

The project has three modules:

- `Mesh` (`mesh.dfy`) holds the data model. It has vertices with integer positions and an ARGB
  colour, the two buffer sizes, and the six indices of a cell (`Sextet`). It also holds
  closed-form reference buffers: `ReferenceVertices` says what every slot holds, using division
  and remainder by the row length, and `ReferenceIndices` does the same for every index
  position. Triangles, signed area in the x-z plane and the draw call's arguments are here too.
- `MeshProperties` (`properties.dfy`) holds lemmas about the reference buffers. They cover the
  slot of every grid point, the six indices of every cell, the range of every index, the winding
  of every triangle, the draw call, and the worked example from the generator's commentary.
- `Generator` (`generator.dfy`) models `GenerateVertex` and `GenerateIndex` as the program runs
  them. Each is a loop over a freshly allocated array, driven by the program's running counters
  `k` and `l`. Each is proved equal to its reference buffer.

The grid is parametrised by `width` (gridWidth) and `length` (gridLength). The program fixes
both at 10 (`GridWidth`, `GridLength`).

The comments beside the constants call gridWidth the X axis and gridLength the Z axis. The
loops do the opposite: gridWidth bounds the `z` loop and gridLength bounds the `x` loop. The
model follows the loops.

The index formula reads only gridLength. `IndicesFitIff` proves that every index addresses the
vertex buffer exactly when `length <= width`. When `width > length`, the triangles cover only
the first `length` rows. The program's own constants have `width == length`. The model keeps
the formula as written and states `length <= width` wherever in-range indices are needed.

## Model

| member | source | states |
|---|---|---|
| `Mesh.VertCount` | Form1.cs:33 | vertCount is never negative for a real grid. Every slot `row * length + col` of the `width` x `length` grid lies in `[0, vertCount)`, and for a non-empty grid vertCount is exactly one past the slot of the last grid point `(length - 1, width - 1)`: no slot is missing and none is spare. An empty grid (`width` or `length` 0) has vertCount 0. |
| `Mesh.IndCount` | Form1.cs:34 | indCount is divisible by 3, and `indCount / 3` is two triangles for each of the `(L-1)^2` cells. For `L >= 2` the block of the last cell, `(L-2, L-2)`, ends exactly at indCount. |
| `Mesh.PaintDraw` | Form1.cs:171 | The draw call starts at index 0 and vertex 0, declares all vertCount vertices, and its triangle count times three is exactly indCount. |
| `Generator.GenerateVertex` | Form1.cs:185-214 | The buffer has exactly vertCount slots. The grid point `(x, 0, z)` lands in slot `z * length + x`, and every slot holds the white point at `(k % length, 0, k / length)`. The running counter takes the values 0, 1, ..., vertCount - 1 in turn, so every slot is written exactly once. |
| `Generator.GenerateIndex` | Form1.cs:216-257 | The running counters `k` and `l` produce exactly the closed-form index buffer. Cell `(row, col)` owns positions `6 * (row * (L-1) + col)` onward, holding `(k, k+L, k+L+1, k, k+L+1, k+1)` with `k = row * L + col`. Every index lies in `[0, L*L)`. |
| `Generator.WriteSextet` | Form1.cs:240-246 | The six writes of one cell put the sextet of corner `k` at positions `i` to `i + 5`, after the unchanged positions before `i`, and change nothing from `i + 6` on. |
| `Generator.CounterStep` | Form1.cs:248-255 | One loop step advances the cell number by one. Inside a row the corner `k` moves by one. At the right-hand edge `l` wraps to 0 and `k` moves by two, onto the first vertex of the next row. |
| `Generator.InitializeBuffers` | Form1.cs:78-94 | Both buffers are generated at the sizes they are created with, and hold exactly the reference vertex and index buffers. The draw call covers the whole index buffer, and stays inside both buffers exactly when `length <= width`. |
| `MeshProperties.VertexSlots` | Form1.cs:199-213 | For every row `z < width` and column `x < length`, slot `z * length + x` is inside the buffer and holds the grid point `(x, 0, z)`. |
| `MeshProperties.FlatWhiteGrid` | Form1.cs:202-209 | Every vertex is white and has `y = 0`, with `0 <= x < length` and `0 <= z < width`. |
| `MeshProperties.CellBaseOffRightEdge` | Form1.cs:248-255 | A cell's corner `k` is never in the right-hand column (`k % L = col < L-1`), so `k + 1` is in the same row. The corner's row is the cell's row. |
| `MeshProperties.CellBlockAt` | Form1.cs:238-246 | The six indices of cell number `c` are the sextet of its corner. |
| `MeshProperties.CellBlocks` | Form1.cs:238-256 | For every `row, col` in `[0, L-2]`, the block at `6 * (row * (L-1) + col)` is `(k, k+L, k+L+1, k, k+L+1, k+1)` with `k = row * L + col`. |
| `MeshProperties.CellAt` | Form1.cs:238-246 | The cell at `(row, col)` is cell number `row * (L-1) + col`, its corner is vertex `row * L + col`, and its six indices are that corner's sextet. |
| `MeshProperties.NextCellPrefix` | Form1.cs:238-246 | Each pass of the loop extends the filled prefix of the buffer by exactly the sextet of the next cell's corner. |
| `MeshProperties.IndexAtInRange` | Form1.cs:240-246 | Each index lies between its cell's corner `k` and `k + L + 1`, inside `[0, L*L)`. |
| `MeshProperties.IndicesInRange` | Form1.cs:240-246 | Every index of the buffer lies in `[0, L*L)`. |
| `MeshProperties.LargestIndex` | Form1.cs:240-246 | The last cell's top-right corner is vertex `L*L - 1`, so the bound `L*L` is tight. |
| `MeshProperties.IndicesFitIff` | Form1.cs:33-34 | Every index is below vertCount (`width * length`) if and only if `length <= width`. |
| `MeshProperties.CellTriangles` | Form1.cs:240-246 | Read as a triangle list, triangles `2c` and `2c+1` are cell `c`'s `(k, k+L, k+L+1)` and `(k, k+L+1, k+1)`. |
| `MeshProperties.SextetShape` | Form1.cs:240-246 | A cell's two triangles share exactly the diagonal `{k, k+L+1}`. Together they use exactly the four distinct corners `{k, k+1, k+L, k+L+1}`. |
| `MeshProperties.CellCorners` | Form1.cs:219-223 | A cell's four corners are the grid points `(col, row)`, `(col, row+1)`, `(col+1, row+1)` and `(col+1, row)`, all inside the vertex buffer. |
| `MeshProperties.CellWinding` | Form1.cs:219-223 | Both triangles of a cell have signed area -1 in the x-z plane: non-degenerate, with the same winding. |
| `MeshProperties.TriangleWinding` | Form1.cs:240-246 | Triangle `t` of the list addresses the vertex buffer and has signed area -1. |
| `MeshProperties.ConsistentWinding` | Form1.cs:219-246 | When `length <= width`, every triangle of the list addresses the vertex buffer and all have the same orientation. |
| `MeshProperties.PaintDrawReads` | Form1.cs:171 | The draw call's triangle count is `2 * (L-1)^2`, and it reads every index, no more and no fewer. It stays inside both buffers if and only if `length <= width`. |
| `MeshProperties.LengthFiveBlocks` | Form1.cs:224-230 | For `L = 5`, the first five cells have corners 0, 1, 2, 3 and 5, so vertex 4 on the right-hand edge is skipped. |
| `MeshProperties.LengthFiveExample` | Form1.cs:221-230 | For `L = 5` the buffer begins `0,5,6,0,6,1, 1,6,7,1,7,2, 2,7,8,2,8,3, 3,8,9,3,9,4, 5,10,11,5,11,6`. |
| `MeshProperties.DefaultGrid` | Form1.cs:17-34 | The program's 10 x 10 grid has 100 vertices, 486 indices and 162 drawn triangles, all in bounds. Its last vertex is `(9, 0, 9)`. |
| `MeshProperties.DefaultFirstCell` | Form1.cs:238-246 | The program's grid starts with the cell `(0, 10, 11, 0, 11, 1)`. |

## Left out

- The camera (`SetupCamera`), keyboard and mouse handlers, and the perspective and look-at matrices are left out. They are floating-point trigonometry and library matrix builders (Form1.cs:135-157, 259-350, 379-389).
- Device creation, vertex and index buffer creation, and the `SetData` callbacks are left out. They are DirectX calls (Form1.cs:61-133). The buffer sizes they use are modelled by `Generator.InitializeBuffers`.
- The paint loop is modelled only through its draw-call arguments (`Mesh.PaintDraw`). Clearing, presenting and self-invalidation are rendering and event-loop glue (Form1.cs:159-183).
- Menu and colour-dialog handlers and the form designer file are left out. They are WinForms UI glue (Form1.cs:352-377).
- Which side of the grid the counter-clockwise cull mode hides is left out. It depends on the floating-point view transform. The model proves only that all triangles share one orientation in the x-z plane.
- `Vector3` positions are floats in the program. They are modelled as integer triples, which is exact because every coordinate is a small integer.
- The colour is the ARGB integer `Color.White.ToArgb()`, which is -1 as a signed 32-bit value. The two field writes per vertex (position, then colour) are modelled as one write of the whole vertex.
- `gridHeight` and the commented-out `y` loop are left out. They are unused (Form1.cs:19, 206-211).
- Integers are unbounded in the model. The program uses 32-bit `int`, so indCount `(L-1)^2 * 6` wraps from `L = 18920` on, and `vertCount` wraps once `W * L` passes 2^31 - 1. With the program's constants no value exceeds 486.
- The program keeps both buffers in fields of the form. Here the generators return them as sequences.
- Generator.GenerateVertex: negative dimensions are not modelled. A negative vertCount makes the array allocation throw. Two negative dimensions give a positive count and slots that stay at their default value.
- Generator.GenerateIndex: lengths below 2 are not modelled. For `L = 1` the index buffer is empty. For `L <= 0` the column counter never reaches `L - 1`, so the corner never skips an edge.

=== FILE: generator.dfy ===
/**
 The two buffer generators as the program runs them: nested loops over a freshly allocated
 array driven by running counters, proved equal to the closed-form reference buffers.
 */
module Generator {
  import opened Mesh
  import opened MeshProperties

  /** GenerateVertex: rows `z` outside, columns `x` inside, the running counter `k` naming the
      slot written. `slots` records `k` at every write. */
  method GenerateVertex(width: int, length: int) returns (verts: seq<Vertex>, ghost slots: seq<int>)
    requires 0 <= width && 0 <= length
    ensures |verts| == VertCount(width, length)
    ensures forall row, col :: 0 <= row < width && 0 <= col < length ==>
      0 <= Slot(row, col, length) < |verts| && verts[Slot(row, col, length)] == GridPoint(col, row)
    ensures length > 0 ==> verts == ReferenceVertices(width, length)
    ensures |slots| == VertCount(width, length)
    ensures forall j :: 0 <= j < |slots| ==> slots[j] == j
  {
    var a := new Vertex[width * length];
    var k := 0;
    slots := [];
    var z := 0;
    while z < width
      invariant 0 <= z <= width
      invariant k == Slot(z, 0, length) && k <= a.Length
      invariant k > 0 ==> length > 0
      invariant |slots| == k && forall j :: 0 <= j < k ==> slots[j] == j
      invariant forall j :: 0 <= j < k ==> a[j] == VertexAt(j, length)
    {
      var x := 0;
      while x < length
        invariant 0 <= x <= length
        invariant k == Slot(z, x, length) && k <= a.Length
        invariant k > 0 ==> length > 0
        invariant |slots| == k && forall j :: 0 <= j < k ==> slots[j] == j
        invariant forall j :: 0 <= j < k ==> a[j] == VertexAt(j, length)
      {
        SlotInRange(z, x, width, length);
        SlotDivMod(z, x, length);
        a[k] := GridPoint(x, z);
        slots := slots + [k];
        k := k + 1;
        x := x + 1;
      }
      assert (z + 1) * length == z * length + length;
      z := z + 1;
    }
    verts := a[..];
    if length > 0 {
      assert verts == ReferenceVertices(width, length);
      VertexSlots(width, length);
    }
  }

  /** GenerateIndex: one pass of six writes per cell. `k` is the cell's lower-left corner and
      `l` its column; when `l` reaches `length - 1` the corner skips the right-hand edge. */
  method GenerateIndex(length: int) returns (indices: seq<int>)
    requires length >= 2
    ensures indices == ReferenceIndices(length)
    ensures forall row, col :: 0 <= row < length - 1 && 0 <= col < length - 1 ==>
      0 <= CellNumber(row, col, length) < CellCount(length) &&
      6 * CellNumber(row, col, length) + 6 <= |indices| &&
      Block(indices, CellNumber(row, col, length)) == Sextet(Slot(row, col, length), length)
    ensures forall p :: 0 <= p < |indices| ==> 0 <= indices[p] < length * length
  {
    var n := IndCount(length);
    var a := new int[n];
    var k := 0;
    var l := 0;
    ghost var row := 0;
    ghost var c := 0;
    var i := 0;
    while i < n
      invariant 0 <= c <= CellCount(length) && i == 6 * c
      invariant 0 <= l < length - 1
      invariant c == CellNumber(row, l, length)
      invariant k == Slot(row, l, length)
      invariant a[..i] == ReferenceIndices(length)[..i]
    {
      IndexLoopStep(row, l, c, length);
      WriteSextet(a, i, k, length);
      CounterStep(row, l, length);

      k := k + 1;
      l := l + 1;
      if l == length - 1 {
        l := 0;
        k := k + 1;
        row := row + 1;
      }
      c := c + 1;
      i := i + 6;
    }
    indices := a[..];
    assert indices == a[..i];
    CellBlocks(length);
    IndicesInRange(length);
  }

  /** The six writes of one cell: the sextet of corner `k` at positions `i` to `i + 5`, after
      the positions already filled. */
  method WriteSextet(a: array<int>, i: int, k: int, length: int)
    requires 0 <= i && i + 6 <= a.Length
    modifies a
    ensures a[..i + 6] == old(a[..i]) + Sextet(k, length)
    ensures a[i + 6..] == old(a[i + 6..])
  {
    a[i] := k;
    a[i + 1] := k + length;
    a[i + 2] := k + length + 1;
    a[i + 3] := k;
    a[i + 4] := k + length + 1;
    a[i + 5] := k + 1;
  }

  /** The start-up sequence: both buffers generated at the sizes they are created with. */
  method InitializeBuffers(width: int, length: int) returns (verts: seq<Vertex>, indices: seq<int>)
    requires 0 <= width && 2 <= length
    ensures |verts| == VertCount(width, length) && |indices| == IndCount(length)
    ensures verts == ReferenceVertices(width, length)
    ensures indices == ReferenceIndices(length)
    ensures 3 * PaintDraw(width, length).primitiveCount == |indices|
    ensures ReadsInBounds(PaintDraw(width, length), |verts|, indices) <==> length <= width
  {
    ghost var slots;
    verts, slots := GenerateVertex(width, length);
    indices := GenerateIndex(length);
    PaintDrawReads(width, length);
  }

  /** One pass of the index loop: the cell at (`row`, `l`) is a whole cell of the buffer, and
      it extends the filled prefix by the sextet of its corner `Slot(row, l, length)`. */
  lemma IndexLoopStep(row: int, l: int, c: int, length: int)
    requires 0 <= l < length - 1 && 0 <= c && 6 * c < IndCount(length)
    requires c == CellNumber(row, l, length)
    ensures c < CellCount(length) && 6 * c + 6 <= |ReferenceIndices(length)|
    ensures ReferenceIndices(length)[..6 * c + 6]
      == ReferenceIndices(length)[..6 * c] + Sextet(Slot(row, l, length), length)
  {
    DivModUnique(c, length - 1, row, l);
    NextCellPrefix(c, length);
  }

  /** One step of the cell counters: the column `l` advances, and at the right-hand edge it
      wraps to the next row while the corner skips the edge vertex. */
  lemma CounterStep(row: int, l: int, length: int)
    requires 0 <= l < length - 1
    ensures l + 1 < length - 1 ==>
      && CellNumber(row, l, length) + 1 == CellNumber(row, l + 1, length)
      && Slot(row, l, length) + 1 == Slot(row, l + 1, length)
    ensures l + 1 == length - 1 ==>
      && CellNumber(row, l, length) + 1 == CellNumber(row + 1, 0, length)
      && Slot(row, l, length) + 2 == Slot(row + 1, 0, length)
  {
  }
}

=== FILE: mesh.dfy ===
/**
 The data model of the grid mesh: grid points, the vertex and index counts that size the two
 buffers, and closed-form reference definitions of what every slot of each buffer holds.

 The grid has `width` rows along the z axis and `length` points per row along the x axis.
 Coordinates are small integers, so positions are integer triples.
 */
module Mesh {

  /** gridWidth and gridLength as the program fixes them. */
  const GridWidth: int := 10
  const GridLength: int := 10

  /** Color.White.ToArgb(): alpha, red, green and blue all 0xFF, read as a signed 32-bit int. */
  const WhiteArgb: int := -1

  datatype Vec3 = Vec3(x: int, y: int, z: int)

  /** A position-coloured vertex. */
  datatype Vertex = Vertex(position: Vec3, color: int)

  /** The grid point at column `x` of row `z`: flat (y = 0) and white. */
  function GridPoint(x: int, z: int): Vertex
  {
    Vertex(Vec3(x, 0, z), WhiteArgb)
  }

  /** Linear (row-major) index of column `col` in row `row`. */
  function Slot(row: int, col: int, length: int): int
  {
    row * length + col
  }

  /** vertCount: the size of the vertex buffer. Every slot of the `width` x `length` grid lies
      inside it, and the buffer ends right after the last grid point's slot. */
  function VertCount(width: int, length: int): (r: int)
    ensures 0 <= width && 0 <= length ==> r >= 0
    ensures forall row, col :: 0 <= row < width && 0 <= col < length ==>
      0 <= Slot(row, col, length) < r
    ensures 0 < width && 0 < length ==> r == Slot(width - 1, length - 1, length) + 1
    ensures width == 0 ==> r == 0
    ensures length == 0 ==> r == 0
  {
    forall row, col | 0 <= row < width && 0 <= col < length
      ensures 0 <= Slot(row, col, length) < width * length
    {
      assert 0 <= row * length;
      assert (row + 1) * length <= width * length;
    }
    assert (width - 1) * length == width * length - length;
    width * length
  }

  /** Number of grid cells the index buffer covers; it depends on `length` only. */
  function CellCount(length: int): nat
  {
    (length - 1) * (length - 1)
  }

  /** indCount: the size of the index buffer, six indices for each cell. */
  function IndCount(length: int): (r: nat)
    ensures r % 3 == 0 && r / 3 == 2 * CellCount(length)
    ensures length >= 2 ==> r == 6 * CellNumber(length - 2, length - 2, length) + 6
  {
    assert (length - 1) * (length - 1) == (length - 2) * (length - 1) + (length - 1);
    (length - 1) * (length - 1) * 6
  }

  /** Number of the cell at (`row`, `col`) among the cells, counted row by row. */
  function CellNumber(row: int, col: int, length: int): int
  {
    row * (length - 1) + col
  }

  /** The six indices of the cell whose lower-left corner is vertex `k`: two triangles. */
  function Sextet(k: int, length: int): seq<int>
  {
    [k, k + length, k + length + 1, k, k + length + 1, k + 1]
  }

  /** The vertex that belongs at linear index `k`. */
  function VertexAt(k: int, length: int): Vertex
    requires length > 0
  {
    GridPoint(k % length, k / length)
  }

  /** The lower-left corner of cell number `c`. */
  function CellBase(c: int, length: int): int
    requires length >= 2
  {
    Slot(c / (length - 1), c % (length - 1), length)
  }

  /** The index that belongs at position `p` of the index buffer. */
  function IndexAt(p: int, length: int): int
    requires length >= 2
  {
    Sextet(CellBase(p / 6, length), length)[p % 6]
  }

  /** The whole vertex buffer, slot by slot. */
  function ReferenceVertices(width: int, length: int): (r: seq<Vertex>)
    requires width >= 0 && length >= 1
    ensures |r| == VertCount(width, length)
  {
    seq(width * length, k => VertexAt(k, length))
  }

  /** The whole index buffer, position by position. */
  function ReferenceIndices(length: int): (r: seq<int>)
    requires length >= 2
    ensures |r| == IndCount(length)
  {
    seq(IndCount(length), p => IndexAt(p, length))
  }

  /** The six indices of cell number `c` in an index buffer. */
  function Block(indices: seq<int>, c: int): seq<int>
    requires 0 <= c && 6 * c + 6 <= |indices|
  {
    indices[6 * c .. 6 * c + 6]
  }

  /** One triangle of a triangle list, as three vertex indices. */
  datatype Triangle = Triangle(a: int, b: int, c: int)

  /** The first `count` triangles of a triangle list. */
  function Triangles(indices: seq<int>, count: int): (r: seq<Triangle>)
    requires 0 <= count && 3 * count <= |indices|
    ensures |r| == count
  {
    seq(count, t requires 0 <= t < count => Triangle(indices[3 * t], indices[3 * t + 1], indices[3 * t + 2]))
  }

  /** Twice the signed area of the triangle `a b c` projected onto the x-z plane. */
  function SignedArea2(a: Vec3, b: Vec3, c: Vec3): int
  {
    (b.x - a.x) * (c.z - a.z) - (c.x - a.x) * (b.z - a.z)
  }

  /** The vertex indices of `t` all address `verts`. */
  predicate InBuffer(verts: seq<Vertex>, t: Triangle)
  {
    0 <= t.a < |verts| && 0 <= t.b < |verts| && 0 <= t.c < |verts|
  }

  /** Twice the signed area of triangle `t` of a vertex buffer. */
  function Area2(verts: seq<Vertex>, t: Triangle): int
    requires InBuffer(verts, t)
  {
    SignedArea2(verts[t.a].position, verts[t.b].position, verts[t.c].position)
  }

  /** The arguments of an indexed triangle-list draw call. */
  datatype DrawCall = DrawCall(
    baseVertex: int,
    minVertexIndex: int,
    numVertices: int,
    startIndex: int,
    primitiveCount: int)

  /** The draw call of the paint loop: all vertCount vertices, indCount / 3 triangles. */
  function PaintDraw(width: int, length: int): (r: DrawCall)
    ensures r.baseVertex == 0 && r.minVertexIndex == 0 && r.startIndex == 0
    ensures r.numVertices == VertCount(width, length)
    ensures 3 * r.primitiveCount == IndCount(length)
  {
    DrawCall(0, 0, VertCount(width, length), 0, IndCount(length) / 3)
  }

  /** Draw call `d` reads only indices inside `indices`, and each of them resolves to a vertex
      inside its declared vertex range, which lies inside a buffer of `vertexCount` vertices. */
  predicate ReadsInBounds(d: DrawCall, vertexCount: int, indices: seq<int>)
  {
    && 0 <= d.startIndex && 0 <= d.primitiveCount
    && d.startIndex + 3 * d.primitiveCount <= |indices|
    && 0 <= d.minVertexIndex && d.minVertexIndex + d.numVertices <= vertexCount
    && forall p :: d.startIndex <= p < d.startIndex + 3 * d.primitiveCount ==>
         d.minVertexIndex <= d.baseVertex + indices[p] < d.minVertexIndex + d.numVertices
  }
}

=== FILE: properties.dfy ===
/**
 Properties of the reference vertex and index buffers: where each grid point lands, the six
 indices of each cell, the range of every index, the winding of every triangle, and what the
 paint loop's draw call reads.
 */
module MeshProperties {
  import opened Mesh

  /** Euclidean division has one quotient and one remainder. */
  lemma DivModUnique(n: int, d: int, q: int, r: int)
    requires 0 < d && 0 <= r < d && n == q * d + r
    ensures n / d == q && n % d == r
  {
    var q', r' := n / d, n % d;
    assert n == q' * d + r' && 0 <= r' < d;
    if q' != q {
      var m := q - q';
      assert m * d == q * d - q' * d;
      assert m * d == r' - r;
      if m > 0 {
        MulAtLeast(m, d);
      } else {
        MulAtLeast(-m, d);
      }
    }
  }

  lemma MulAtLeast(m: int, d: int)
    requires m >= 1 && d > 0
    ensures m * d >= d
  {
  }

  /** A slot inside a `width` x `length` grid addresses the vertex buffer. */
  lemma SlotInRange(row: int, col: int, width: int, length: int)
    requires 0 <= row < width && 0 <= col < length
    ensures 0 <= Slot(row, col, length) < VertCount(width, length)
  {
    assert row * length >= 0;
    assert (row + 1) * length <= width * length;
  }

  /** Slot is a bijection between in-range (row, col) pairs and linear indices. */
  lemma SlotDivMod(row: int, col: int, length: int)
    requires 0 <= col < length
    ensures Slot(row, col, length) / length == row
    ensures Slot(row, col, length) % length == col
    ensures VertexAt(Slot(row, col, length), length) == GridPoint(col, row)
  {
    DivModUnique(Slot(row, col, length), length, row, col);
  }

  /** The grid point at (`col`, `row`) sits in slot `row * length + col` of the vertex buffer. */
  lemma VertexSlots(width: int, length: int)
    requires width >= 0 && length >= 1
    ensures forall row, col :: 0 <= row < width && 0 <= col < length ==>
      Slot(row, col, length) < |ReferenceVertices(width, length)| &&
      ReferenceVertices(width, length)[Slot(row, col, length)] == GridPoint(col, row)
  {
    forall row, col | 0 <= row < width && 0 <= col < length
      ensures Slot(row, col, length) < |ReferenceVertices(width, length)|
      ensures ReferenceVertices(width, length)[Slot(row, col, length)] == GridPoint(col, row)
    {
      SlotInRange(row, col, width, length);
      SlotDivMod(row, col, length);
    }
  }

  /** Every vertex is white, lies in the plane y = 0, and lies inside the grid. */
  lemma FlatWhiteGrid(width: int, length: int)
    requires width >= 0 && length >= 1
    ensures forall k :: 0 <= k < |ReferenceVertices(width, length)| ==>
      var v := ReferenceVertices(width, length)[k];
      && v.color == WhiteArgb
      && v.position.y == 0
      && 0 <= v.position.x < length
      && 0 <= v.position.z < width
  {
    forall k | 0 <= k < |ReferenceVertices(width, length)|
      ensures 0 <= k / length < width
    {
      RowInRange(k, width, length);
    }
  }

  /** A slot of a `width` x `length` grid lies in one of its `width` rows. */
  lemma RowInRange(k: int, width: int, length: int)
    requires length > 0 && 0 <= k < width * length
    ensures 0 <= k / length < width
  {
    if k / length >= width {
      MulMono(width, k / length, length);
    }
  }

  /** The lower-left corner of every cell is off the right-hand edge, so its right neighbour
      `k + 1` is in the same row; the corner's row and column are the cell's. */
  lemma CellBaseOffRightEdge(c: int, length: int)
    requires length >= 2 && 0 <= c < CellCount(length)
    ensures 0 <= CellBase(c, length) / length == c / (length - 1) < length - 1
    ensures CellBase(c, length) % length == c % (length - 1) < length - 1
    ensures (CellBase(c, length) + 1) / length == CellBase(c, length) / length
  {
    var d := length - 1;
    var row, col := c / d, c % d;
    CellRowInRange(c, d);
    SlotDivMod(row, col, length);
    assert CellBase(c, length) + 1 == Slot(row, col + 1, length);
    SlotDivMod(row, col + 1, length);
  }

  /** The row of cell number `c` of a `d` x `d` block of cells is below `d`. */
  lemma CellRowInRange(c: int, d: int)
    requires d > 0 && 0 <= c < d * d
    ensures 0 <= c / d < d
  {
  }

  lemma MulMono(a: int, b: int, d: int)
    requires a <= b && d >= 0
    ensures a * d <= b * d
  {
  }

  /** Cell number `c`'s block of the index buffer is the sextet of its corner. */
  lemma CellBlockAt(c: int, length: int)
    requires length >= 2 && 0 <= c < CellCount(length)
    ensures 6 * c + 6 <= |ReferenceIndices(length)|
    ensures Block(ReferenceIndices(length), c) == Sextet(CellBase(c, length), length)
  {
    var s := ReferenceIndices(length);
    forall j | 0 <= j < 6
      ensures s[6 * c + j] == Sextet(CellBase(c, length), length)[j]
    {
      assert (6 * c + j) / 6 == c && (6 * c + j) % 6 == j;
    }
  }

  /** The cell at (`row`, `col`) owns the six indices starting at `6 * (row * (length - 1) + col)`,
      and they are `(k, k+L, k+L+1, k, k+L+1, k+1)` for its corner `k = row * length + col`. */
  lemma CellBlocks(length: int)
    requires length >= 2
    ensures forall row, col :: 0 <= row < length - 1 && 0 <= col < length - 1 ==>
      0 <= CellNumber(row, col, length) < CellCount(length) &&
      6 * CellNumber(row, col, length) + 6 <= |ReferenceIndices(length)| &&
      Block(ReferenceIndices(length), CellNumber(row, col, length))
        == Sextet(Slot(row, col, length), length)
  {
    forall row, col | 0 <= row < length - 1 && 0 <= col < length - 1
      ensures 0 <= CellNumber(row, col, length) < CellCount(length) &&
        6 * CellNumber(row, col, length) + 6 <= |ReferenceIndices(length)| &&
        Block(ReferenceIndices(length), CellNumber(row, col, length))
          == Sextet(Slot(row, col, length), length)
    {
      CellAt(row, col, length);
    }
  }

  /** The cell at (`row`, `col`) is cell number `row * (length - 1) + col`, and its corner is
      vertex `row * length + col`. */
  lemma CellAt(row: int, col: int, length: int)
    requires 0 <= row < length - 1 && 0 <= col < length - 1
    ensures 0 <= CellNumber(row, col, length) < CellCount(length)
    ensures CellBase(CellNumber(row, col, length), length) == Slot(row, col, length)
    ensures 6 * CellNumber(row, col, length) + 6 <= |ReferenceIndices(length)|
    ensures Block(ReferenceIndices(length), CellNumber(row, col, length))
      == Sextet(Slot(row, col, length), length)
  {
    var c := CellNumber(row, col, length);
    MulMono(0, row, length - 1);
    MulMono(row + 1, length - 1, length - 1);
    assert (row + 1) * (length - 1) == row * (length - 1) + (length - 1);
    DivModUnique(c, length - 1, row, col);
    CellBlockAt(c, length);
  }

  /** The index at position `p` lies between the corner `k` of its cell and `k + L + 1`, which
      is at most `L*L - 1`. */
  lemma IndexAtInRange(p: int, length: int)
    requires length >= 2 && 0 <= p < IndCount(length)
    ensures CellBase(p / 6, length) <= IndexAt(p, length) <= CellBase(p / 6, length) + length + 1
    ensures 0 <= IndexAt(p, length) < length * length
  {
    var d := length - 1;
    var c := p / 6;
    assert 0 <= c < CellCount(length);
    var row, col := c / d, c % d;
    CellRowInRange(c, d);
    var k := CellBase(c, length);
    assert k == row * length + col;
    MulMono(0, row, length);
    MulMono(row, length - 2, length);
    assert (length - 2) * length == length * length - 2 * length;
    assert k <= IndexAt(p, length) <= k + length + 1;
  }

  /** Every index addresses a vertex of an L x L grid. */
  lemma IndicesInRange(length: int)
    requires length >= 2
    ensures forall p :: 0 <= p < |ReferenceIndices(length)| ==>
      0 <= ReferenceIndices(length)[p] < length * length
  {
    forall p | 0 <= p < |ReferenceIndices(length)|
      ensures 0 <= ReferenceIndices(length)[p] < length * length
    {
      IndexAtInRange(p, length);
    }
  }

  /** The last cell's top-right corner is vertex `L*L - 1`. */
  lemma LargestIndex(length: int)
    requires length >= 2
    ensures ReferenceIndices(length)[IndCount(length) - 4] == length * length - 1
  {
    var c := CellCount(length) - 1;
    assert IndCount(length) - 4 == 6 * c + 2;
    DivModUnique(c, length - 1, length - 2, length - 2);
    assert (6 * c + 2) / 6 == c && (6 * c + 2) % 6 == 2;
  }

  /** Every index addresses the `width` x `length` vertex buffer exactly when `length <= width`:
      the index formula reads `length` only. */
  lemma IndicesFitIff(width: int, length: int)
    requires length >= 2
    ensures (forall p :: 0 <= p < |ReferenceIndices(length)| ==>
               0 <= ReferenceIndices(length)[p] < VertCount(width, length))
            <==> length <= width
  {
    IndicesInRange(length);
    if length <= width {
      MulMono(length, width, length);
    } else {
      LargestIndex(length);
      MulMono(width, length - 1, length);
      assert (length - 1) * length == length * length - length;
      assert ReferenceIndices(length)[IndCount(length) - 4] >= VertCount(width, length);
    }
  }

  /** As a triangle list, the index buffer holds cell `c`'s two triangles at `2c` and `2c + 1`. */
  lemma CellTriangles(c: int, length: int)
    requires length >= 2 && 0 <= c < CellCount(length)
    ensures 2 * c + 1 < 2 * CellCount(length)
    ensures 3 * (2 * CellCount(length)) == |ReferenceIndices(length)|
    ensures var k := CellBase(c, length);
      var tris := Triangles(ReferenceIndices(length), 2 * CellCount(length));
      && tris[2 * c] == Triangle(k, k + length, k + length + 1)
      && tris[2 * c + 1] == Triangle(k, k + length + 1, k + 1)
  {
    CellBlockAt(c, length);
    TrianglesOfBlock(ReferenceIndices(length), 2 * CellCount(length), c);
  }

  /** In any triangle list, triangles `2c` and `2c + 1` are made of block `c`'s six indices. */
  lemma TrianglesOfBlock(indices: seq<int>, count: int, c: int)
    requires 0 <= c && 2 * c + 1 < count && 3 * count <= |indices|
    ensures 6 * c + 6 <= |indices|
    ensures var b, tris := Block(indices, c), Triangles(indices, count);
      && tris[2 * c] == Triangle(b[0], b[1], b[2])
      && tris[2 * c + 1] == Triangle(b[3], b[4], b[5])
  {
  }

  /** The two triangles of a cell share the diagonal `(k, k+L+1)` and together cover exactly the
      four distinct corners of the cell. */
  lemma SextetShape(k: int, length: int)
    requires length >= 2
    ensures var s := Sextet(k, length);
      && s[0] == s[3] == k && s[2] == s[4] == k + length + 1
      && {s[0], s[1], s[2]} * {s[3], s[4], s[5]} == {k, k + length + 1}
      && (set j | 0 <= j < 6 :: s[j]) == {k, k + 1, k + length, k + length + 1}
      && |{k, k + 1, k + length, k + length + 1}| == 4
  {
  }

  /** The corners of cell number `c` are the grid points (col, row), (col, row+1),
      (col+1, row+1) and (col+1, row) of the vertex buffer. */
  lemma CellCorners(c: int, width: int, length: int)
    requires 2 <= length <= width && 0 <= c < CellCount(length)
    ensures var verts, k := ReferenceVertices(width, length), CellBase(c, length);
      var row, col := c / (length - 1), c % (length - 1);
      && 0 <= k && k + length + 1 < |verts|
      && verts[k].position == Vec3(col, 0, row)
      && verts[k + length].position == Vec3(col, 0, row + 1)
      && verts[k + length + 1].position == Vec3(col + 1, 0, row + 1)
      && verts[k + 1].position == Vec3(col + 1, 0, row)
  {
    CellRowInRange(c, length - 1);
    CornersAt(c / (length - 1), c % (length - 1), width, length);
  }

  /** The four corners of the cell whose lower-left corner is grid point (`col`, `row`). */
  lemma CornersAt(row: int, col: int, width: int, length: int)
    requires 0 <= row && row + 1 < width && 0 <= col && col + 1 < length
    ensures var verts, k := ReferenceVertices(width, length), Slot(row, col, length);
      && 0 <= k && k + length + 1 < |verts|
      && verts[k].position == Vec3(col, 0, row)
      && verts[k + length].position == Vec3(col, 0, row + 1)
      && verts[k + length + 1].position == Vec3(col + 1, 0, row + 1)
      && verts[k + 1].position == Vec3(col + 1, 0, row)
  {
    NextRowSlot(row, col, length);
    NextRowSlot(row, col + 1, length);
    VertexAtSlot(row, col, width, length);
    VertexAtSlot(row + 1, col, width, length);
    VertexAtSlot(row + 1, col + 1, width, length);
    VertexAtSlot(row, col + 1, width, length);
  }

  /** The point above a grid point is one row of `length` slots further on. */
  lemma NextRowSlot(row: int, col: int, length: int)
    ensures Slot(row + 1, col, length) == Slot(row, col, length) + length
  {
  }

  /** The grid point (`col`, `row`) of a `width` x `length` grid, read back from its slot. */
  lemma VertexAtSlot(row: int, col: int, width: int, length: int)
    requires 0 <= row < width && 0 <= col < length
    ensures 0 <= Slot(row, col, length) < |ReferenceVertices(width, length)|
    ensures ReferenceVertices(width, length)[Slot(row, col, length)].position == Vec3(col, 0, row)
  {
    SlotInRange(row, col, width, length);
    SlotDivMod(row, col, length);
  }

  /** Both triangles of cell number `c` are unit right triangles of the same orientation. */
  lemma CellWinding(c: int, width: int, length: int)
    requires 2 <= length <= width && 0 <= c < CellCount(length)
    ensures var verts, k := ReferenceVertices(width, length), CellBase(c, length);
      var first, second := Triangle(k, k + length, k + length + 1), Triangle(k, k + length + 1, k + 1);
      && InBuffer(verts, first) && Area2(verts, first) == -1
      && InBuffer(verts, second) && Area2(verts, second) == -1
  {
    CellCorners(c, width, length);
    var row, col := c / (length - 1), c % (length - 1);
    assert SignedArea2(Vec3(col, 0, row), Vec3(col, 0, row + 1), Vec3(col + 1, 0, row + 1)) == -1;
    assert SignedArea2(Vec3(col, 0, row), Vec3(col + 1, 0, row + 1), Vec3(col + 1, 0, row)) == -1;
  }

  /** Triangle `t` of the triangle list is one of the two triangles of cell `t / 2`. */
  lemma TriangleWinding(t: int, width: int, length: int)
    requires 2 <= length <= width && 0 <= t < 2 * CellCount(length)
    ensures 3 * (2 * CellCount(length)) == |ReferenceIndices(length)|
    ensures var tri := Triangles(ReferenceIndices(length), 2 * CellCount(length))[t];
      InBuffer(ReferenceVertices(width, length), tri) && Area2(ReferenceVertices(width, length), tri) == -1
  {
    var c := t / 2;
    assert t == 2 * c || t == 2 * c + 1;
    assert 0 <= c < CellCount(length);
    CellTriangles(c, length);
    CellWinding(c, width, length);
  }

  /** Every triangle the index buffer describes is non-degenerate and has the same orientation
      in the x-z plane as every other, provided the indices address the vertex buffer. */
  lemma ConsistentWinding(width: int, length: int)
    requires 2 <= length <= width
    ensures var verts := ReferenceVertices(width, length);
      var tris := Triangles(ReferenceIndices(length), 2 * CellCount(length));
      forall t :: 0 <= t < |tris| ==> InBuffer(verts, tris[t]) && Area2(verts, tris[t]) == -1
  {
    forall t | 0 <= t < 2 * CellCount(length)
      ensures var tri := Triangles(ReferenceIndices(length), 2 * CellCount(length))[t];
        InBuffer(ReferenceVertices(width, length), tri) && Area2(ReferenceVertices(width, length), tri) == -1
    {
      TriangleWinding(t, width, length);
    }
  }

  /** The paint loop's draw call covers the index buffer exactly, as two triangles per cell,
      and stays inside both buffers exactly when `length <= width`. */
  lemma PaintDrawReads(width: int, length: int)
    requires length >= 2
    ensures PaintDraw(width, length).primitiveCount == 2 * CellCount(length)
    ensures 3 * PaintDraw(width, length).primitiveCount == IndCount(length)
    ensures ReadsInBounds(PaintDraw(width, length), VertCount(width, length), ReferenceIndices(length))
            <==> length <= width
  {
    IndicesFitIff(width, length);
  }

  /** A prefix of whole cells grows by one block per cell. */
  lemma PrefixByBlocks(s: seq<int>, c: int)
    requires 0 <= c && 6 * c + 6 <= |s|
    ensures s[..6 * c + 6] == s[..6 * c] + Block(s, c)
  {
  }

  /** The reference buffer up to the end of cell `c` extends the one before it by the sextet of
      `c`'s corner. */
  lemma NextCellPrefix(c: int, length: int)
    requires length >= 2 && 0 <= c < CellCount(length)
    ensures 6 * c + 6 <= |ReferenceIndices(length)|
    ensures ReferenceIndices(length)[..6 * c + 6]
      == ReferenceIndices(length)[..6 * c] + Sextet(CellBase(c, length), length)
  {
    CellBlockAt(c, length);
    PrefixByBlocks(ReferenceIndices(length), c);
  }

  /** The first five cells of a grid of length 5 are those with corners 0, 1, 2, 3 and 5:
      the right-hand column, vertex 4, is skipped. */
  lemma LengthFiveBlocks()
    ensures ReferenceIndices(5)[..30]
      == Sextet(0, 5) + Sextet(1, 5) + Sextet(2, 5) + Sextet(3, 5) + Sextet(5, 5)
  {
    var s := ReferenceIndices(5);
    assert s[..0] == [];
    NextCellPrefix(0, 5);
    assert CellBase(0, 5) == 0;
    assert s[..6] == Sextet(0, 5);
    NextCellPrefix(1, 5);
    assert CellBase(1, 5) == 1;
    assert s[..12] == Sextet(0, 5) + Sextet(1, 5);
    NextCellPrefix(2, 5);
    assert CellBase(2, 5) == 2;
    assert s[..18] == Sextet(0, 5) + Sextet(1, 5) + Sextet(2, 5);
    NextCellPrefix(3, 5);
    assert CellBase(3, 5) == 3;
    assert s[..24] == Sextet(0, 5) + Sextet(1, 5) + Sextet(2, 5) + Sextet(3, 5);
    NextCellPrefix(4, 5);
    assert CellBase(4, 5) == 5;
  }

  lemma LengthFiveSextets()
    ensures Sextet(0, 5) + Sextet(1, 5) + Sextet(2, 5) + Sextet(3, 5) + Sextet(5, 5)
      == [0, 5, 6, 0, 6, 1, 1, 6, 7, 1, 7, 2, 2, 7, 8, 2, 8, 3, 3, 8, 9, 3, 9, 4, 5, 10, 11, 5, 11, 6]
  {
  }

  /** The first five cells of a grid of length 5, as the generator's own commentary lists them. */
  lemma LengthFiveExample()
    ensures ReferenceIndices(5)[..30] == [0, 5, 6, 0, 6, 1,
                                          1, 6, 7, 1, 7, 2,
                                          2, 7, 8, 2, 8, 3,
                                          3, 8, 9, 3, 9, 4,
                                          5, 10, 11, 5, 11, 6]
  {
    LengthFiveBlocks();
    LengthFiveSextets();
  }

  /** The program's own 10 x 10 grid: 100 vertices, 486 indices, 162 triangles, all in bounds,
      and the last vertex at (9, 0, 9). */
  lemma DefaultGrid()
    ensures VertCount(GridWidth, GridLength) == 100
    ensures IndCount(GridLength) == 486
    ensures ReferenceVertices(GridWidth, GridLength)[99] == GridPoint(9, 9)
    ensures PaintDraw(GridWidth, GridLength).primitiveCount == 162
    ensures ReadsInBounds(PaintDraw(GridWidth, GridLength),
                          VertCount(GridWidth, GridLength), ReferenceIndices(GridLength))
  {
    PaintDrawReads(GridWidth, GridLength);
  }

  /** The first cell of the program's own grid is (0, 10, 11, 0, 11, 1). */
  lemma DefaultFirstCell()
    ensures ReferenceIndices(GridLength)[..6] == [0, 10, 11, 0, 11, 1]
  {
    assert ReferenceIndices(GridLength)[..0] == [];
    NextCellPrefix(0, GridLength);
    assert CellBase(0, GridLength) == 0;
  }
}
